=== FILE: README.md ===
# ALTER SEQUENCE: copy-on-write update of a sequence's metadata

This project models the `ALTER SEQUENCE` statement of the Lealone database
(`org.lealone.sql.ddl.AlterSequence`). The statement does not change a
published sequence in place. It first locks the sequence. It checks the
session's rights only when the sequence was reached through a table column.
It then copies the sequence and applies to the copy only the attributes the
statement carries: `CYCLE`, `CACHE`, and `START`/`MINVALUE`/`MAXVALUE`/`INCREMENT`
(these four go through `Sequence.modify`, and only when at least one is
present). It links the copy back to the original and hands the copy to the
schema as the new published version.

Files:

- `Wrappers.dfy`: `Option` (a Java `null`), `Result` (a call that returns or
  throws) and `Outcome` (a void call that may throw).
- `Sequences.dfy`: the immutable `Sequence` version and its `prior` back-link
  (`setOldSequence`). `Versions` walks the chain, and lemmas show the chain
  never cycles.
- `Schema.dfy`: the schema state the statement touches. It holds the published
  version per sequence name and the names whose `tryLock` call returned
  without throwing.
  `Publish` replaces one entry. `Rollback` republishes the version the
  current one links back to.
- `AlterSequence.dfy`: the statement's fields (`Statement`), `setColumn`
  and `setSequence`, the pure builder `Build` (copy, sparse apply, back-link),
  and `Update`, which runs lock, right check, build and publish in that order.
  It returns the new schema state, the outcome (`0` or the error thrown) and the
  trace of completed steps.

Collaborators whose code is not part of this model are fields of `Env`, and
each one may throw any `DbError`:

- `tryLock`: `Sequence.tryLock`.
- `checkRight`: `User.checkRight(table, Right.ALL)`.
- `evaluate`: the cache-size expression's `optimize/getValue/getLong`.
- `getLong`: `CreateSequence.getLong` on a non-null expression. A null
  expression gives null without a call.
- `modifyRange`: `Sequence.modify`.

No rule about the values these collaborators return is assumed. What the
model does assume about code outside `AlterSequence` is listed under
"## Left out". The main assumption is that `Sequence.modify` rewrites only the
range and allocation state (`RangeState`: cursor, min, max, increment). So
the cycle flag and cache size survive it.

Points of ordering and delegation in the code:

- The lock is taken (line 84) before the right check (lines 85-87).
- Range validation happens inside `Sequence.modify`, which is abstract here.
- `update()` itself compares nothing before calling `schema.update`. Any check inside `schema.update` is covered by the never-throws assumption under "## Left out".

## Model

| member | source | states |
|---|---|---|
| Sequences.Versions | lealone-sql/src/main/java/org/lealone/sql/ddl/AlterSequence.java:103 | The history reached through the old-sequence links starts at the given version. Each entry links to the next, and the chain ends at a version with no predecessor. |
| Sequences.VersionsSuffix | lealone-sql/src/main/java/org/lealone/sql/ddl/AlterSequence.java:103 | Every tail of a version history is the history of its first element. |
| Sequences.ChainAcyclic | lealone-sql/src/main/java/org/lealone/sql/ddl/AlterSequence.java:103 | No version occurs twice in a history, so old-sequence links never form a cycle. This holds by representation: a version is an inductive value that contains its predecessor. |
| AlterSequence.SetColumn | lealone-sql/src/main/java/org/lealone/sql/ddl/AlterSequence.java:50-56 | Fails with SEQUENCE_NOT_FOUND carrying the column's SQL exactly when the column has no sequence. On success the statement targets the column's sequence, remembers its table, and keeps every requested change. |
| AlterSequence.GetLong | lealone-sql/src/main/java/org/lealone/sql/ddl/AlterSequence.java:108-110 | An absent expression gives null without an error. A present one gives its value when its evaluation succeeds and the evaluation's own error otherwise. |
| Schema.Publish | lealone-sql/src/main/java/org/lealone/sql/ddl/AlterSequence.java:104 | The entry for the new version's name becomes the new version. Every other published sequence and the lock set stay as they were. |
| AlterSequence.RangeArgs | lealone-sql/src/main/java/org/lealone/sql/ddl/AlterSequence.java:96-100 | Absent start/min/max/increment are passed to `modify` as null and present ones as their evaluated value. Evaluation succeeds iff every present expression evaluates. The first failure in the order start, min, max, increment is the one reported. |
| AlterSequence.Build | lealone-sql/src/main/java/org/lealone/sql/ddl/AlterSequence.java:88-103 | Succeeds iff the cache-size evaluation and, when a range attribute is present, the range evaluations and `modify` all succeed. The new version keeps the name and links back to the target. Cycle and cache size take the requested value or carry over. The range comes from `modify` when a range attribute is present and carries over otherwise. Cache-size errors take precedence over range errors. When `modify` throws, the build fails with that exception's error. |
| AlterSequence.ModifyOnlyOnRangeChange | lealone-sql/src/main/java/org/lealone/sql/ddl/AlterSequence.java:96-102 | Without a range attribute the build does not depend on `getLong` or `modify` at all, and the range and allocation state carry over. |
| AlterSequence.EmptyAlterCopiesAll | lealone-sql/src/main/java/org/lealone/sql/ddl/AlterSequence.java:88-103 | Any statement that requests no cycle, cache-size or range change, whatever its table, yields a version equal to the target in every attribute, linked back to the target. |
| AlterSequence.DeltaDeterminesBuild | lealone-sql/src/main/java/org/lealone/sql/ddl/AlterSequence.java:88-103 | Any version that keeps the unrequested attributes, takes the requested ones and links back to the target is exactly what the build returns. So the per-attribute description characterises the build completely. |
| AlterSequence.Update | lealone-sql/src/main/java/org/lealone/sql/ddl/AlterSequence.java:83-106 | The trace holds exactly the completed steps, in order: a prefix of lock, right check (only through a column), build, publish. The lock appears iff `tryLock` returned, and the build and publish steps appear iff the statement succeeds; all steps appear exactly on success. Success returns 0. Any failure leaves every published version unchanged. Success replaces only the target's entry, with a version related to the target as the build promises. A lock failure changes nothing. Otherwise the lock stays recorded. The right check is made exactly for the column's table, and a refusal stops the statement before the build. Past the lock and the right check, a failing build reports the build's own error. |
| AlterSequence.UpdateExtendsHistory | lealone-sql/src/main/java/org/lealone/sql/ddl/AlterSequence.java:103-104 | After a successful update, the history of the published version is the new version followed by the target's whole, untouched history. |
| AlterSequence.RollbackRestores | lealone-sql/src/main/java/org/lealone/sql/ddl/AlterSequence.java:103-104 | When the statement targeted the published version, republishing the new version's back-link restores the schema's published versions exactly. |
| AlterSequence.SetSequenceSkipsRightCheck | lealone-sql/src/main/java/org/lealone/sql/ddl/AlterSequence.java:85-87 | A statement targeted through `setSequence` whose table was never set never checks rights, whatever changes it requests. It succeeds iff the lock and the build succeed. |
| AlterSequence.SetColumnChecksTable | lealone-sql/src/main/java/org/lealone/sql/ddl/AlterSequence.java:85-87 | A statement targeted through `setColumn` checks rights on the column's table iff the lock was taken. A refusal fails the statement with nothing published. |

## Left out

- Blocking, timeouts and lock compatibility in `tryLock` (line 84) are concurrency. The lock is a call that passes or throws; on success the sequence's name is recorded as locked.
- The boolean that `tryLock` returns is discarded at line 84. The model does not distinguish a `false` return from a `true` one: both are recorded as a held lock, so the locked set can list a sequence the session does not actually hold.
- `Schema.update`'s persistence, the old row and the lock token (line 104) belong to the storage layer, which is not part of this model. Publishing replaces the map entry for the sequence's name.
- Transaction commit and the undo log are not part of this model. `Rollback` only republishes the back-linked version, to state what the back-link is for.
- Expression evaluation (line 93) and `CreateSequence.getLong` (lines 108-110) are abstract, possibly failing evaluators returning a 64-bit `Long`.
- The internals of `Sequence.modify` (range validation) are not part of this model. It is an abstract, possibly failing function of the copy's range state and the four arguments.
- Rights (`checkRight`, `Right.ALL`) are an abstract check that may refuse.
- AlterSequence.Build: assumes that `sequence.copy()` (line 88) reproduces every attribute, including the allocation cursor. `Sequence.copy` is not part of this model.
- AlterSequence.Build: assumes that `setCycle` and `setCacheSize` (lines 90, 94) store their argument unchanged. A setter that normalised a value, such as a non-positive cache size, would break the cache-size clause. `Sequence` is not part of this model.
- AlterSequence.GetLong: assumes that `CreateSequence.getLong` returns null for a null expression without throwing, although lines 97-100 call it for absent expressions too. `CreateSequence` is not part of this model.
- AlterSequence.Update: assumes that `schema.update` (line 104) never throws, so a failure while publishing is not modelled and the "succeeds iff" clause leaves it out. `Schema` is not part of this model.
- AlterSequence.Update: requires a target sequence. Calling `update` on a statement whose `sequence` was never set throws a `NullPointerException` at line 84, and that path is not modelled.
- AlterSequence.SetColumn: when the column has no sequence, the Java setter has already stored the table and the null sequence before throwing. The model returns only the error, since the statement is abandoned then.
- `getType()` and the one-line setters (`setStartWith`, `setIncrement`, `setCycle`, `setMinValue`, `setMaxValue`, `setCacheSize`) only store a field. Statements are built directly as values, and `SetSequence` has no contract of its own.

=== FILE: AlterSequence.dfy ===
/** The ALTER SEQUENCE statement: it locks the targeted sequence, checks the
    session's rights when the sequence was reached through a table column,
    builds a new version from a copy carrying only the requested changes,
    links it back to the targeted version and publishes it in the schema. */
module AlterSequence {
  import opened Wrappers
  import opened Sequences
  import opened Schema

  /** An unevaluated SQL expression, known only by its text. */
  datatype Expr = Expr(sql: string)

  datatype Table = Table(name: string)

  /** A table column; `sequence` is the sequence that feeds its default
      values, if any; `sql` is its SQL rendering used in error messages. */
  datatype Column = Column(table: Table, sequence: Option<Sequence>, sql: string)

  /** `SequenceNotFound` is the one error this statement raises itself; every
      other error is thrown by a collaborator and passed through as it is. */
  datatype DbError =
    | SequenceNotFound(columnSql: string)
    | Raised(code: int, message: string)

  /** The statement's fields; `None` is a field the parser never set. */
  datatype Statement = Statement(
    table: Option<Table>,
    sequence: Option<Sequence>,
    start: Option<Expr>,
    increment: Option<Expr>,
    cycle: Option<bool>,
    minValue: Option<Expr>,
    maxValue: Option<Expr>,
    cacheSize: Option<Expr>)

  /** The arguments of `Sequence.modify`; `None` is a `null` argument. */
  datatype RangeRequest = RangeRequest(
    start: Option<Long>,
    minValue: Option<Long>,
    maxValue: Option<Long>,
    increment: Option<Long>)

  /** The collaborators the statement calls, as seen from its session. Each
      may throw. `evaluate` is `optimize(session).getValue(session).getLong()`,
      `getLong` is `CreateSequence.getLong` on a non-null expression, and
      `modifyRange` is `Sequence.modify` acting on the copy's range state. */
  datatype Env = Env(
    tryLock: Sequence -> Outcome<DbError>,
    checkRight: Table -> Outcome<DbError>,
    evaluate: Expr -> Result<Long, DbError>,
    getLong: Expr -> Result<Long, DbError>,
    modifyRange: (RangeState, RangeRequest) -> Result<RangeState, DbError>)

  /** The steps of `Update` that completed, in the order they completed. */
  datatype Event = Locked(name: string) | RightChecked(table: Table) | Built | Published(name: string)

  datatype UpdateResult = UpdateResult(state: SchemaState, outcome: Result<int, DbError>, trace: seq<Event>)

  /** A freshly constructed statement: every field null. */
  function New(): Statement {
    Statement(None, None, None, None, None, None, None, None)
  }

  function SetSequence(stmt: Statement, s: Sequence): Statement {
    stmt.(sequence := Some(s))
  }

  /** Targets the sequence behind `column`, remembering the column's table
      for the right check; fails when the column has no sequence. */
  function SetColumn(stmt: Statement, column: Column): (r: Result<Statement, DbError>)
    ensures r.Failure? <==> column.sequence.None?
    ensures r.Failure? ==> r.error == SequenceNotFound(column.sql)
    ensures r.Success? ==> r.value.table == Some(column.table) && r.value.sequence == column.sequence
    ensures r.Success? ==> SameAttributes(r.value, stmt)
  {
    if column.sequence.None? then
      Failure(SequenceNotFound(column.sql))
    else
      Success(stmt.(table := Some(column.table), sequence := column.sequence))
  }

  /** The two statements request the same changes. */
  predicate SameAttributes(a: Statement, b: Statement) {
    && a.start == b.start && a.increment == b.increment && a.cycle == b.cycle
    && a.minValue == b.minValue && a.maxValue == b.maxValue && a.cacheSize == b.cacheSize
  }

  /** The statement changes at least one range-defining attribute, so
      `Sequence.modify` is called. */
  predicate HasRangeChange(stmt: Statement) {
    stmt.start.Some? || stmt.minValue.Some? || stmt.maxValue.Some? || stmt.increment.Some?
  }

  /** `CreateSequence.getLong`: null for an absent expression, otherwise the
      expression's value or the error its evaluation throws. */
  function GetLong(env: Env, e: Option<Expr>): (r: Result<Option<Long>, DbError>)
    ensures e.None? ==> r == Success(None)
    ensures e.Some? ==> (r.Success? <==> env.getLong(e.value).Success?)
    ensures e.Some? && r.Success? ==> r.value == Some(env.getLong(e.value).value)
    ensures e.Some? && r.Failure? ==> r.error == env.getLong(e.value).error
  {
    match e
    case None => Success(None)
    case Some(x) =>
      var v :- env.getLong(x);
      Success(Some(v))
  }

  /** An absent expression, or one whose evaluation does not throw. */
  ghost predicate Evaluates(env: Env, e: Option<Expr>) {
    e.None? || env.getLong(e.value).Success?
  }

  /** `v` is what is passed to `modify` for the expression `e`: null when
      `e` is absent, the evaluated value otherwise. */
  ghost predicate Passes(env: Env, e: Option<Expr>, v: Option<Long>) {
    && (e.None? ==> v.None?)
    && (e.Some? ==> v.Some? && env.getLong(e.value) == Success(v.value))
  }

  /** The error thrown by evaluating `e`, which is present and fails. */
  ghost function ErrorOf(env: Env, e: Option<Expr>): DbError
    requires !Evaluates(env, e)
  {
    env.getLong(e.value).error
  }

  /** Evaluates the arguments of `modify`: start, min, max, increment. */
  function RangeArgs(stmt: Statement, env: Env): (r: Result<RangeRequest, DbError>)
    ensures r.Success? <==>
      Evaluates(env, stmt.start) && Evaluates(env, stmt.minValue)
      && Evaluates(env, stmt.maxValue) && Evaluates(env, stmt.increment)
    ensures r.Success? ==>
      && Passes(env, stmt.start, r.value.start)
      && Passes(env, stmt.minValue, r.value.minValue)
      && Passes(env, stmt.maxValue, r.value.maxValue)
      && Passes(env, stmt.increment, r.value.increment)
    // the first failing evaluation, in source order, is the one reported
    ensures !Evaluates(env, stmt.start) ==> r == Failure(ErrorOf(env, stmt.start))
    ensures Evaluates(env, stmt.start) && !Evaluates(env, stmt.minValue) ==>
      r == Failure(ErrorOf(env, stmt.minValue))
    ensures Evaluates(env, stmt.start) && Evaluates(env, stmt.minValue) && !Evaluates(env, stmt.maxValue) ==>
      r == Failure(ErrorOf(env, stmt.maxValue))
    ensures (Evaluates(env, stmt.start) && Evaluates(env, stmt.minValue) && Evaluates(env, stmt.maxValue)
             && !Evaluates(env, stmt.increment)) ==>
      r == Failure(ErrorOf(env, stmt.increment))
  {
    var start :- GetLong(env, stmt.start);
    var min :- GetLong(env, stmt.minValue);
    var max :- GetLong(env, stmt.maxValue);
    var inc :- GetLong(env, stmt.increment);
    Success(RangeRequest(start, min, max, inc))
  }

  /** No collaborator called while building the new version throws. */
  ghost predicate BuildSucceeds(target: Sequence, stmt: Statement, env: Env) {
    && (stmt.cacheSize.Some? ==> env.evaluate(stmt.cacheSize.value).Success?)
    && (HasRangeChange(stmt) ==>
          RangeArgs(stmt, env).Success? && env.modifyRange(target.range, RangeArgs(stmt, env).value).Success?)
  }

  /** `s` is `target` with exactly the statement's changes applied: requested
      attributes take the requested values, all others carry over, and `s`
      links back to `target`. */
  ghost predicate Delta(target: Sequence, stmt: Statement, env: Env, s: Sequence) {
    && s.name == target.name
    && s.prior == Some(target)
    && (stmt.cycle.None? ==> s.cycle == target.cycle)
    && (stmt.cycle.Some? ==> s.cycle == stmt.cycle.value)
    && (stmt.cacheSize.None? ==> s.cacheSize == target.cacheSize)
    && (stmt.cacheSize.Some? ==> env.evaluate(stmt.cacheSize.value) == Success(s.cacheSize))
    && (!HasRangeChange(stmt) ==> s.range == target.range)
    && (HasRangeChange(stmt) ==>
          RangeArgs(stmt, env).Success? && env.modifyRange(target.range, RangeArgs(stmt, env).value) == Success(s.range))
  }

  /** Copies `target` and applies the statement's changes to the copy:
      cycle, then cache size, then the range through `modify`; finally the
      copy is linked back to `target`. `target` itself is a value and is
      never changed. */
  function Build(target: Sequence, stmt: Statement, env: Env): (r: Result<Sequence, DbError>)
    ensures r.Success? <==> BuildSucceeds(target, stmt, env)
    ensures r.Success? ==> Delta(target, stmt, env, r.value)
    // the cache size is evaluated before any range attribute
    ensures stmt.cacheSize.Some? && env.evaluate(stmt.cacheSize.value).Failure? ==>
      r == Failure(env.evaluate(stmt.cacheSize.value).error)
    ensures ((stmt.cacheSize.None? || env.evaluate(stmt.cacheSize.value).Success?)
             && HasRangeChange(stmt) && RangeArgs(stmt, env).Failure?) ==>
      r == Failure(RangeArgs(stmt, env).error)
    // an exception from `modify` is the error the build fails with
    ensures ((stmt.cacheSize.None? || env.evaluate(stmt.cacheSize.value).Success?)
             && HasRangeChange(stmt) && RangeArgs(stmt, env).Success?
             && env.modifyRange(target.range, RangeArgs(stmt, env).value).Failure?) ==>
      r == Failure(env.modifyRange(target.range, RangeArgs(stmt, env).value).error)
  {
    var copy := target;
    var withCycle := if stmt.cycle.Some? then copy.(cycle := stmt.cycle.value) else copy;
    var withCache :-
      if stmt.cacheSize.Some? then
        var size :- env.evaluate(stmt.cacheSize.value);
        Success(withCycle.(cacheSize := size))
      else
        Success(withCycle);
    var withRange :-
      if HasRangeChange(stmt) then
        var args :- RangeArgs(stmt, env);
        var range :- env.modifyRange(withCache.range, args);
        Success(withCache.(range := range))
      else
        Success(withCache);
    Success(withRange.(prior := Some(target)))
  }

  /** The steps a statement targeting a sequence named `name` runs when
      nothing fails. */
  function Plan(stmt: Statement, name: string): seq<Event> {
    [Locked(name)]
    + (if stmt.table.Some? then [RightChecked(stmt.table.value)] else [])
    + [Built, Published(name)]
  }

  /** Executes the statement against schema state `st`: lock, right check,
      build, publish. Returns 0 on success. */
  function Update(st: SchemaState, stmt: Statement, env: Env): (r: UpdateResult)
    requires stmt.sequence.Some?
    // the steps run in the fixed order, and all of them exactly on success
    ensures r.trace <= Plan(stmt, stmt.sequence.value.name)
    ensures r.outcome.Success? <==> r.trace == Plan(stmt, stmt.sequence.value.name)
    // the trace holds exactly the steps that completed
    ensures Locked(stmt.sequence.value.name) in r.trace <==> env.tryLock(stmt.sequence.value).Pass?
    ensures Built in r.trace <==> r.outcome.Success?
    ensures Published(stmt.sequence.value.name) in r.trace <==> r.outcome.Success?
    ensures r.outcome.Success? <==>
      && env.tryLock(stmt.sequence.value).Pass?
      && (stmt.table.Some? ==> env.checkRight(stmt.table.value).Pass?)
      && BuildSucceeds(stmt.sequence.value, stmt, env)
    ensures r.outcome.Success? ==> r.outcome.value == 0
    // publishing is the last step: any failure leaves every published version as it was
    ensures r.outcome.Failure? ==> r.state.published == st.published
    ensures r.outcome.Success? ==>
      && r.state.published.Keys == st.published.Keys + {stmt.sequence.value.name}
      && Delta(stmt.sequence.value, stmt, env, r.state.published[stmt.sequence.value.name])
    ensures forall n :: n in st.published && n != stmt.sequence.value.name ==>
      n in r.state.published && r.state.published[n] == st.published[n]
    // the lock is taken first and kept whatever happens next
    ensures env.tryLock(stmt.sequence.value).Fail? ==>
      r.state == st && r.outcome == Failure(env.tryLock(stmt.sequence.value).error)
    ensures env.tryLock(stmt.sequence.value).Pass? ==>
      r.state.locked == st.locked + {stmt.sequence.value.name}
    // the right check is made exactly when the target came through a column,
    // and a refusal stops the statement before anything is built
    ensures forall t :: RightChecked(t) in r.trace <==>
      env.tryLock(stmt.sequence.value).Pass? && stmt.table == Some(t) && env.checkRight(t).Pass?
    ensures (env.tryLock(stmt.sequence.value).Pass? && stmt.table.Some?
             && env.checkRight(stmt.table.value).Fail?) ==>
      r.outcome == Failure(env.checkRight(stmt.table.value).error) && Built !in r.trace
    // past the lock and the right check, a failing build reports its own error
    ensures (env.tryLock(stmt.sequence.value).Pass?
             && (stmt.table.Some? ==> env.checkRight(stmt.table.value).Pass?)
             && Build(stmt.sequence.value, stmt, env).Failure?) ==>
      r.outcome == Failure(Build(stmt.sequence.value, stmt, env).error)
  {
    var target := stmt.sequence.value;
    match env.tryLock(target)
    case Fail(e) => UpdateResult(st, Failure(e), [])
    case Pass =>
      var locked := st.(locked := st.locked + {target.name});
      var trace := [Locked(target.name)];
      if stmt.table.Some? && env.checkRight(stmt.table.value).Fail? then
        UpdateResult(locked, Failure(env.checkRight(stmt.table.value).error), trace)
      else
        var trace := trace + (if stmt.table.Some? then [RightChecked(stmt.table.value)] else []);
        match Build(target, stmt, env)
        case Failure(e) => UpdateResult(locked, Failure(e), trace)
        case Success(next) => UpdateResult(Publish(locked, next), Success(0), trace + [Built, Published(target.name)])
  }

  /** A statement that requests no change, whatever its target, builds a
      version equal to its target in every attribute, linked back to it. */
  lemma EmptyAlterCopiesAll(target: Sequence, stmt: Statement, env: Env)
    requires stmt.cycle.None? && stmt.cacheSize.None? && !HasRangeChange(stmt)
    ensures Build(target, stmt, env) == Success(target.(prior := Some(target)))
  {
  }

  /** Without a range-defining attribute neither `CreateSequence.getLong` nor
      `Sequence.modify` is consulted: replacing them changes nothing, and the
      range and allocation state carry over. */
  lemma ModifyOnlyOnRangeChange(
    target: Sequence, stmt: Statement, env: Env,
    getLong: Expr -> Result<Long, DbError>,
    modifyRange: (RangeState, RangeRequest) -> Result<RangeState, DbError>)
    requires !HasRangeChange(stmt)
    ensures Build(target, stmt, env) == Build(target, stmt, env.(getLong := getLong, modifyRange := modifyRange))
    ensures Build(target, stmt, env).Success? ==> Build(target, stmt, env).value.range == target.range
  {
  }

  /** `Delta` pins the new version down completely: a successful build
      produces the one sequence that satisfies it. */
  lemma DeltaDeterminesBuild(target: Sequence, stmt: Statement, env: Env, s: Sequence)
    requires Delta(target, stmt, env, s)
    ensures Build(target, stmt, env) == Success(s)
  {
  }

  /** The published version after a successful update links back to the
      version the statement targeted, whose whole history is kept intact. */
  lemma UpdateExtendsHistory(st: SchemaState, stmt: Statement, env: Env)
    requires stmt.sequence.Some?
    requires Update(st, stmt, env).outcome.Success?
    ensures var name := stmt.sequence.value.name;
      Versions(Update(st, stmt, env).state.published[name])
      == [Update(st, stmt, env).state.published[name]] + Versions(stmt.sequence.value)
  {
  }

  /** When the statement targeted the published version, rolling back a
      successful alteration through the back-link restores every published
      version. */
  lemma RollbackRestores(st: SchemaState, stmt: Statement, env: Env)
    requires stmt.sequence.Some?
    requires stmt.sequence.value.name in st.published
    requires st.published[stmt.sequence.value.name] == stmt.sequence.value
    requires Update(st, stmt, env).outcome.Success?
    ensures Rollback(Update(st, stmt, env).state, stmt.sequence.value.name).published == st.published
  {
  }

  /** A statement targeted through `setSequence` and never through a column
      (so its table is unset) never checks rights, whatever changes it
      requests; it succeeds iff the lock and the build do. */
  lemma SetSequenceSkipsRightCheck(st: SchemaState, stmt: Statement, s: Sequence, env: Env)
    requires stmt.table.None?
    ensures forall t :: RightChecked(t) !in Update(st, SetSequence(stmt, s), env).trace
    ensures Update(st, SetSequence(stmt, s), env).outcome.Success? <==>
      env.tryLock(s).Pass? && BuildSucceeds(s, SetSequence(stmt, s), env)
  {
  }

  /** A statement targeted through `setColumn` checks rights on the column's
      table once the lock is held, and fails without publishing if the check
      refuses. */
  lemma SetColumnChecksTable(st: SchemaState, stmt: Statement, column: Column, env: Env)
    requires SetColumn(stmt, column).Success?
    ensures var u := Update(st, SetColumn(stmt, column).value, env);
      && (RightChecked(column.table) in u.trace <==>
            env.tryLock(column.sequence.value).Pass? && env.checkRight(column.table).Pass?)
      && (env.checkRight(column.table).Fail? ==> u.outcome.Failure? && u.state.published == st.published)
  {
  }
}

=== FILE: Schema.dfy ===
/** The part of a schema an ALTER SEQUENCE statement touches: the published
    version of every sequence, by name, and the sequences whose `tryLock`
    returned without throwing. */
module Schema {
  import opened Wrappers
  import opened Sequences

  datatype SchemaState = SchemaState(published: map<string, Sequence>, locked: set<string>)

  /** Makes `s` the published version of the sequence named `s.name`; every
      other sequence and the locks are left as they were. */
  function Publish(st: SchemaState, s: Sequence): (r: SchemaState)
    ensures r.published.Keys == st.published.Keys + {s.name}
    ensures r.published[s.name] == s
    ensures forall n :: n in st.published && n != s.name ==> r.published[n] == st.published[n]
    ensures r.locked == st.locked
  {
    st.(published := st.published[s.name := s])
  }

  /** Transaction rollback of the last alteration of `name`: republishes the
      version the current one links back to. */
  function Rollback(st: SchemaState, name: string): SchemaState {
    if name in st.published && st.published[name].prior.Some? then
      st.(published := st.published[name := st.published[name].prior.value])
    else
      st
  }
}

=== FILE: Sequences.dfy ===
/** Immutable versions of a database sequence and their back-link chain.

    A published sequence is never changed in place: an alteration builds a new
    version whose `prior` field points at the version it replaces, so the
    history of a sequence is the chain reached through `prior`. */
module Sequences {
  import opened Wrappers

  const MinLong: int := -0x8000_0000_0000_0000
  const MaxLong: int := 0x7FFF_FFFF_FFFF_FFFF

  /** A Java `long`. */
  type Long = x: int | MinLong <= x <= MaxLong

  /** The attributes `Sequence.modify` rewrites: the allocation cursor and the
      range that governs it. */
  datatype RangeState = RangeState(cursor: Long, minValue: Long, maxValue: Long, increment: Long)

  /** One version of a sequence's metadata. */
  datatype Sequence = Sequence(
    name: string,
    cycle: bool,
    cacheSize: Long,
    range: RangeState,
    prior: Option<Sequence>)

  /** The version chain starting at `s`: `s`, the version it replaced, and so
      on back to the version that has no predecessor. */
  function Versions(s: Sequence): (r: seq<Sequence>)
    ensures |r| >= 1 && r[0] == s
    ensures forall i :: 0 <= i < |r| - 1 ==> r[i].prior == Some(r[i + 1])
    ensures r[|r| - 1].prior.None?
  {
    match s.prior
    case None => [s]
    case Some(p) => [s] + Versions(p)
  }

  /** Every tail of a version chain is the chain of its first element. */
  lemma {:induction false} VersionsSuffix(s: Sequence, i: nat)
    requires i < |Versions(s)|
    ensures Versions(Versions(s)[i]) == Versions(s)[i..]
  {
    if i > 0 {
      var p := s.prior.value;
      assert Versions(s) == [s] + Versions(p);
      assert Versions(s)[i] == Versions(p)[i - 1];
      assert Versions(s)[i..] == Versions(p)[i - 1..];
      VersionsSuffix(p, i - 1);
    }
  }

  /** A version chain never cycles: no version occurs in it twice. This holds
      by representation, since a version is an inductive value that contains
      its predecessor; what an update adds to the chain is stated by
      `AlterSequence.UpdateExtendsHistory`. */
  lemma ChainAcyclic(s: Sequence, i: nat, j: nat)
    requires i < j < |Versions(s)|
    ensures Versions(s)[i] != Versions(s)[j]
  {
    VersionsSuffix(s, i);
    VersionsSuffix(s, j);
  }
}

=== FILE: Wrappers.dfy ===
/** Wrappers: an optional value, a value-or-error result (failure-compatible,
    so it can be used with `:-`), and a pass-or-error outcome for calls that
    return nothing but may throw. */
module Wrappers {

  /** `None` stands for a Java `null` field or argument. */
  datatype Option<+T> = None | Some(value: T)

  /** The result of a call that either returns a value or throws an error. */
  datatype Result<+R, +E> = Success(value: R) | Failure(error: E) {

    predicate IsFailure() {
      Failure?
    }

    function PropagateFailure<U>(): Result<U, E>
      requires Failure?
    {
      Failure(error)
    }

    function Extract(): R
      requires Success?
    {
      value
    }
  }

  /** The result of a void call that may throw. */
  datatype Outcome<+E> = Pass | Fail(error: E)
}
